=== FILE: README.md ===
# javarepl Evaluator — a Dafny model

This project models the evaluation orchestrator of java-repl, the class
`javarepl.Evaluator`. The evaluator takes one line of Java text and does the following:

- classifies it as an import, a class or interface declaration, a typed assignment, an assignment or a value;
- renders it into a generated class, compiles it with javac and loads it;
- runs it, and records the outcome in the session's `EvaluationContext`.

The model keeps the control layer around those steps:

- the cache lookup by text;
- the priority order of classification;
- the single retry as a `Statement` after a compilation failure;
- the redefinition guard for classes the loader already holds;
- the rule that the context is replaced only by appending one `Evaluation` on success;
- the choice of result keys;
- the mapping of the compiler's exit code to an `ExpressionCompilationException`;
- the class path string handed to the compiler;
- the temporary files the evaluator writes and deletes.

Modules:

- `Wrappers`: `Option` and `Either`, as the evaluator's interface uses them.
- `Expressions`: the expression kinds. `Patterns` is a record holding the classification tests and the parsers those kinds rely on.
- `EvaluationContext`: `Evaluation`, `Result` and `Context`, the ordered history, with its `Results`, `Classes` and `LastEvaluation` views.
- `Compilation`: the failures, the class path join and its inverse split, and the exit-code rule.
- `EvaluatorSpec`: every evaluator operation as a function of an explicit `Session` value. It contains:
  - the context, the loaded class names, the loader URLs and the output directory's file names;
  - a `World` of external collaborators;
  - the lemmas stating the evaluator's rules;
  - a `Run` over sequences of operations.
- `Javarepl`: the class `Evaluator`. It has fields `context`, `loaded` and `urls`, and a ghost field `files`. Each method is proved to change the state exactly as the matching `EvaluatorSpec` function does.

External collaborators are parameters. `World.toolchain` renders sources, runs javac (giving an exit code and diagnostics), loads classes and executes the generated class. Execution either throws, returns null or returns a value. `World.rules` supplies `evaluationForResult` and `nextResultKey` of the context. The random class names are the `first` and `second` arguments of `Evaluate`.

## Model

| member | source | states |
|---|---|---|
| `Javarepl.Evaluator.Evaluate` | src/javarepl/Evaluator.java:38-50 | the returned outcome and the new state are those of `EvaluatorSpec.Evaluate`; the URLs are untouched, loaded classes only grow, and the old history is a prefix of the new one |
| `EvaluatorSpec.Evaluate` | src/javarepl/Evaluator.java:38-50 | a cache hit returns the stored evaluation with the state unchanged; otherwise URLs are untouched, loaded classes only grow, and the history grows by appending at most two evaluations |
| `EvaluatorSpec.RetryPolicy` | src/javarepl/Evaluator.java:44-49 | without a compilation failure the first attempt's outcome and state are returned; after one, the same text is dispatched once as a `Statement` and that attempt's outcome is returned, failure included; a successful evaluation is a statement exactly when the retry happened |
| `EvaluatorSpec.CreateExpression` | src/javarepl/Evaluator.java:72-88 | each kind is chosen exactly when its test passes and all earlier tests fail, in the order import, class or interface, assignment with type, assignment; text that passes no test is a `Value`; the source text is kept |
| `EvaluatorSpec.Dispatch` | src/javarepl/Evaluator.java:90-94 | a class or interface returns the class path's outcome, and the eagerly evaluated expression path then runs on the class path's state: its two generated files are removed, at most the generated name is newly loaded, and the context is the class path's, possibly followed by exactly one evaluation of the same expression under the generated name; any other kind runs the expression path alone, appending exactly its evaluation on success and leaving the context on failure |
| `Javarepl.Evaluator.Dispatch` | src/javarepl/Evaluator.java:90-94 | outcome and new state equal `EvaluatorSpec.Dispatch` |
| `EvaluatorSpec.EvaluateClass` | src/javarepl/Evaluator.java:96-117 | an already loaded type gives `UnsupportedOperationException("Redefining classes not supported")` with the state unchanged; it succeeds iff it compiles and loads, recording the type name with no result and loading the type; a compile failure returns that `ExpressionCompilationException` and a load failure returns the loader's error; a failure keeps the context; `<type>.java` stays in the output directory |
| `Javarepl.Evaluator.EvaluateClass` | src/javarepl/Evaluator.java:96-117 | outcome and new state equal `EvaluatorSpec.EvaluateClass` |
| `EvaluatorSpec.EvaluateExpression` | src/javarepl/Evaluator.java:119-151 | the compile, load and execute failures are returned in that order of checking; success appends exactly the returned evaluation under the generated name; it carries a result iff execution returned non-null, keyed by `NextResultKeyFor`; a failure keeps the context; `<name>.java` and `<name>.class` are removed on every path |
| `Javarepl.Evaluator.EvaluateExpression` | src/javarepl/Evaluator.java:119-151 | outcome and new state equal `EvaluatorSpec.EvaluateExpression` |
| `EvaluatorSpec.NextResultKeyFor` | src/javarepl/Evaluator.java:153-157 | an expression with its own key (an assignment) uses that key; any other uses the context's next generated key |
| `Javarepl.Evaluator.Compile` | src/javarepl/Evaluator.java:159-168 | the compiler gets the JVM class path followed by the loader URLs; the result is no failure iff the exit code is 0, else an `ExpressionCompilationException` carrying that code and the diagnostics |
| `Compilation.CompileOutcome` | src/javarepl/Evaluator.java:164-167 | no failure iff the exit code is 0; otherwise a compilation failure carrying the exit code and the diagnostics |
| `Compilation.ClasspathEntries` | src/javarepl/Evaluator.java:161-162 | for any entries, the class path splits back into the pieces of the JVM class path followed by the pieces of each loader URL, in order |
| `Compilation.ClasspathEntriesSeparatorFree` | src/javarepl/Evaluator.java:161-162 | if no entry contains the separator, the class path splits back into exactly the JVM class path followed by the loader URLs in order |
| `Compilation.ClasspathSplitsSchemeUrl` | src/javarepl/Evaluator.java:161-162 | a loader URL of the form `scheme:path` reaches the compiler as two entries, the scheme and the path, when `:` is the separator |
| `Compilation.SplitJoinPieces` | src/javarepl/Evaluator.java:161-162 | for any non-empty list of parts, splitting their join gives the pieces of each part in order |
| `Compilation.SplitJoin` | src/javarepl/Evaluator.java:161-162 | joining separator-free entries and splitting the result gives back the entries |
| `Compilation.ClasspathAddUrl` | src/javarepl/Evaluator.java:161-162 | a URL added to the loader appears at the end of the class path, after one separator |
| `EvaluatorSpec.AddClasspathUrlExtendsClasspath` | src/javarepl/Evaluator.java:68-70 | after `addClasspathUrl` with a new URL, the next compilation's class path is the old one plus a separator and the URL; with a URL the loader already has, it is unchanged |
| `EvaluatorSpec.AddClasspathUrlKeepsDistinct` | src/javarepl/Evaluator.java:68-70 | the loader's URLs stay free of duplicates |
| `EvaluatorSpec.AddClasspathUrl` | src/javarepl/Evaluator.java:68-70 | afterwards the loader has the URL: appended at the end if it was new, the URLs unchanged if it was already there; context, loaded classes and files are untouched |
| `Javarepl.Evaluator.AddClasspathUrl` | src/javarepl/Evaluator.java:68-70 | the new state is `EvaluatorSpec.AddClasspathUrl` of the old; the URL is among the loader's URLs and the context is unchanged |
| `EvaluatorSpec.Clear` | src/javarepl/Evaluator.java:64-66 | the context becomes empty; loaded classes, URLs and files are kept |
| `Javarepl.Evaluator.Clear` | src/javarepl/Evaluator.java:64-66 | the new state is `EvaluatorSpec.Clear` of the old; results are empty and loaded classes are kept |
| `EvaluatorSpec.ClearResetsHistoryOnly` | src/javarepl/Evaluator.java:64-66 | after clearing there is no last evaluation, no result and no class, and the loaded classes are unchanged |
| `EvaluatorSpec.ContextDiscipline` | src/javarepl/Evaluator.java:135-146 | for text that is not cached and not a declaration: a failure leaves the context as it was; a success appends exactly the returned evaluation; a produced value is keyed by `NextResultKeyFor` on the unchanged context |
| `EvaluatorSpec.RedefinitionRejected` | src/javarepl/Evaluator.java:98-100 | when the text has no cached evaluation, declaring a loaded type returns the redefinition failure without a retry; the state is what the eager expression path leaves, so the context is unchanged when that path fails |
| `EvaluatorSpec.DeclarationLoadsType` | src/javarepl/Evaluator.java:108-113 | a successful declaration is recorded under its type name with no result, it is in the new history, and the type is loaded afterwards |
| `EvaluatorSpec.DeclarationCompileFailureRetried` | src/javarepl/Evaluator.java:44-47 | a declaration that passes the redefinition check but fails to compile is retried: the text is dispatched once more as a `Statement`, and that attempt is the result |
| `EvaluatorSpec.RedefinitionSurvivesClear` | src/javarepl/Evaluator.java:98-100 | a type loaded before `clear` is still rejected as a redefinition after it, when the text has no cached evaluation in the emptied context |
| `EvaluatorSpec.RunKeepsLoaded` | src/javarepl/Evaluator.java:98-100 | no sequence of evaluations, clears and URL additions removes a loaded class |
| `EvaluatorSpec.RedefinitionStaysRejected` | src/javarepl/Evaluator.java:98-100 | once a type is loaded, declaring it again is rejected after any sequence of operations, `clear` included, when the text has no cached evaluation at that point |
| `EvaluatorSpec.TemporaryFiles` | src/javarepl/Evaluator.java:102-150 | with fresh generated names, a non-declaration leaves the output directory as it was; a declaration adds at most its own `.java` and `.class`; when the text has no cached evaluation, the type is not yet loaded and its name differs from both generated names, its `.java` stays |
| `Javarepl.Evaluator.constructor` | src/javarepl/Evaluator.java:33-36 | a new evaluator has an empty context, no loaded classes, and the output directory as its only loader URL, so it starts with every history entry loaded and duplicate-free URLs |
| `Javarepl.Evaluator.LastEvaluation` | src/javarepl/Evaluator.java:52-54 | none iff the history is empty, else the newest evaluation |
| `Javarepl.Evaluator.Results` | src/javarepl/Evaluator.java:56-58 | the context's results, each carried by an evaluation in the history |
| `Javarepl.Evaluator.Classes` | src/javarepl/Evaluator.java:60-62 | the context's classes, each a class or interface declaration in the history |
| `EvaluationContext.ResultsOf` | src/javarepl/Evaluator.java:56-58 | no more results than evaluations, each result carried by some evaluation in the history |
| `EvaluationContext.ClassesOf` | src/javarepl/Evaluator.java:60-62 | only class or interface declarations from the history |
| `EvaluationContext.AddEvaluationViews` | src/javarepl/Evaluator.java:52-62 | after an append, the new evaluation is the last one; its result (if any) ends the results; it ends the classes iff it is a declaration |
| `EvaluationContext.Context.AddEvaluation` | src/javarepl/Evaluator.java:136-143 | the old history is a prefix of the new one, which is one longer and ends with the added evaluation |
| `EvaluationContext.EmptyContext` | src/javarepl/Evaluator.java:64-66 | the history is empty |
| `Compilation.Join` | src/javarepl/Evaluator.java:161-162 | no parts give the empty string and a single part gives that part unchanged |
| `Compilation.Classpath` | src/javarepl/Evaluator.java:161-162 | with no loader URLs it is the JVM class path; otherwise it starts with the JVM class path followed by one separator |
| `EvaluatorSpec.Compile` | src/javarepl/Evaluator.java:159-168 | on the class path built from the loader URLs, no failure iff the compiler's exit code is 0; otherwise an `ExpressionCompilationException` carrying that code and the diagnostics |
| `EvaluatorSpec.IsCompilationFailure` | src/javarepl/Evaluator.java:45 | holds exactly when the outcome is a failure that is an `ExpressionCompilationException` |
| `EvaluatorSpec.EvaluateClassKeepsHistoryLoaded` | src/javarepl/Evaluator.java:107-111 | a declaration is recorded only after its type is loaded, so every evaluation in the history keeps naming a loaded class |
| `EvaluatorSpec.EvaluateExpressionKeepsHistoryLoaded` | src/javarepl/Evaluator.java:128-142 | an expression is recorded only after its generated class is loaded, so every evaluation in the history keeps naming a loaded class |
| `EvaluatorSpec.DispatchKeepsHistoryLoaded` | src/javarepl/Evaluator.java:90-94 | both dispatch paths keep every evaluation in the history naming a loaded class |
| `EvaluatorSpec.EvaluateKeepsHistoryLoaded` | src/javarepl/Evaluator.java:38-50 | a cache hit, a first attempt and a retry all keep every evaluation in the history naming a loaded class |
| `EvaluatorSpec.RunKeepsHistoryLoaded` | src/javarepl/Evaluator.java:38-70 | over any sequence of evaluations, clears and URL additions, every evaluation in the history names a class the loader holds |

## Left out

- The Java compiler, the class loader and reflection (`newInstance`, `init`, `evaluate`) are external. Each is a function in `World.toolchain` that gives an exit code and diagnostics, a load outcome, or an execution outcome (throws, null, or a value).
- The collaborators below are not part of this model:
  - `renderExpressionClass`;
  - the regular expressions of `ExpressionPatterns`;
  - the expression classes;
  - `Utils.unwrapException`;
  - `Utils.randomIdentifier`.
  The tests and parsers are arbitrary functions in `Patterns`. Rendering is an arbitrary function. Failures arrive already unwrapped, and a compilation failure passes through unwrapping unchanged.
- The `WithKey` kinds are taken to be the two assignment kinds.
- `EvaluationContext` is not part of this model beyond two things: `addEvaluation` appends, and the accessors give the session-ordered views. `evaluationForResult` and `nextResultKey` are arbitrary functions in `World.rules`. No key-uniqueness rule is assumed.
- Random identifiers are the `first` and `second` arguments. The model does not require them to be fresh. `EvaluatorSpec.TemporaryFiles` states what freshness adds.
- File I/O is left out: `temporaryDirectory`, `Files.write`, `File.delete` and `getCanonicalPath`. Their `IOException`s are not modelled. The output directory is a ghost set of file names. It starts empty. A successful compilation writes only `<name>.class`; nested classes are not modelled.
- `loaded` holds only the classes the evaluator asks the loader for. Classes the loader pulls in transitively are not tracked.
- `EvaluateClass` returns a load failure as a failure. The source catches only `Exception` on that path, so a `LinkageError` raised while loading would escape `evaluate`. The model does not capture that.
- The multimethod dispatch is an explicit match. Java evaluates the argument of `getOrElse` eagerly, so a class or interface declaration also runs the expression path. The model keeps that run and its effect on the context. As a result, a failed declaration can still change the context when that run succeeds. The code may differ from the intended design here. The model does not claim this as a defect of the source, because whether that run can succeed depends on `renderExpressionClass`, which is not part of this model.
- When both attempts fail, the evaluator returns the retry's failure, not the first one. The model follows the code.
- `EvaluationClassLoader` is not part of this model. `addClasspathUrl` is taken to behave like `URLClassLoader.addURL`, which ignores a URL the loader already has. URLs are compared as strings. A null URL is not modelled.
- The class path joins `URL.toString`, not file paths. With `:` as the separator, a `file:` URL therefore reaches the compiler as two entries, the scheme and the path (`Compilation.ClasspathSplitsSchemeUrl`). The model states this and does not claim it as a defect.
- `pathSeparator` is a single character. Runtime values are opaque identities (`Object`).

=== FILE: compilation.dfy ===
/**
 * What the evaluator decides around the Java compiler: the failures it can
 * report, the class path string it passes with `-cp`, and how the
 * compiler's exit code becomes a failure.
 */
module Compilation {
  import opened Wrappers

  /** The failures the evaluator returns on the left of its result. */
  datatype Throwable =
    | ExpressionCompilationException(errorCode: int, diagnostics: string)
    | UnsupportedOperationException(message: string)
    | OtherThrowable(className: string, message: string)

  /** What one run of the compiler reports: its exit code and what it wrote to its error stream. */
  datatype CompilerRun = CompilerRun(exitCode: int, diagnostics: string)

  /** `parts` joined with `sep` between neighbours; the empty sequence joins to the empty string. */
  function Join(parts: seq<string>, sep: char): (joined: string)
    ensures |parts| == 0 ==> joined == []
    ensures |parts| == 1 ==> joined == parts[0]
  {
    if |parts| == 0 then []
    else if |parts| == 1 then parts[0]
    else parts[0] + [sep] + Join(parts[1..], sep)
  }

  /** The position of the first `c` in `s`. */
  function IndexOf(s: string, c: char): (i: nat)
    requires c in s
    ensures i < |s| && s[i] == c && c !in s[..i]
  {
    if s[0] == c then 0
    else
      assert c in s[1..] by { var k :| 0 <= k < |s| && s[k] == c; assert s[1..][k - 1] == c; }
      var j := IndexOf(s[1..], c);
      assert s[..j + 1] == [s[0]] + s[1..][..j];
      1 + j
  }

  /** `s` cut at every `sep`, as a consumer of a path list reads it back. */
  function Split(s: string, sep: char): (parts: seq<string>)
    ensures |parts| >= 1
    decreases |s|
  {
    if sep in s then
      var i := IndexOf(s, sep);
      [s[..i]] + Split(s[i + 1..], sep)
    else [s]
  }

  /** Every part cut at every `sep`, the pieces kept in order. */
  function SplitEach(parts: seq<string>, sep: char): (pieces: seq<string>)
    ensures |pieces| >= |parts|
  {
    if parts == [] then [] else Split(parts[0], sep) + SplitEach(parts[1..], sep)
  }

  /**
   * The class path the compiler is given: the JVM's own class path first,
   * then the class loader's URLs in order, separated by the path separator.
   */
  function Classpath(javaClassPath: string, urls: seq<string>, sep: char): (classpath: string)
    ensures urls == [] ==> classpath == javaClassPath
    ensures urls != [] ==> javaClassPath + [sep] <= classpath
  {
    Join([javaClassPath] + urls, sep)
  }

  /** The compiler's outcome: no failure iff it exited with 0, else a compilation failure carrying code and diagnostics. */
  function CompileOutcome(run: CompilerRun): (failure: Option<Throwable>)
    ensures failure.None? <==> run.exitCode == 0
    ensures failure.Some? ==> failure.value.ExpressionCompilationException?
    ensures failure.Some? ==> failure.value.errorCode == run.exitCode && failure.value.diagnostics == run.diagnostics
  {
    if run.exitCode != 0 then Some(ExpressionCompilationException(run.exitCode, run.diagnostics))
    else None
  }

  lemma {:induction false} JoinAppend(parts: seq<string>, p: string, sep: char)
    requires |parts| >= 1
    ensures Join(parts + [p], sep) == Join(parts, sep) + [sep] + p
  {
    if |parts| > 1 {
      assert (parts + [p])[1..] == parts[1..] + [p];
      JoinAppend(parts[1..], p, sep);
    }
  }

  /** A string joined from separator-free parts splits back into exactly those parts. */
  lemma {:induction false} SplitJoin(parts: seq<string>, sep: char)
    requires |parts| >= 1
    requires forall i :: 0 <= i < |parts| ==> sep !in parts[i]
    ensures Split(Join(parts, sep), sep) == parts
  {
    if |parts| > 1 {
      var head, rest := parts[0], Join(parts[1..], sep);
      var s := head + [sep] + rest;
      assert s[|head|] == sep;
      var i := IndexOf(s, sep);
      assert s[..|head|] == head;
      assert i == |head|;
      assert s[i + 1..] == rest;
      SplitJoin(parts[1..], sep);
    }
  }

  /** Adding a URL to the loader extends the class path by one separator and the URL. */
  lemma ClasspathAddUrl(javaClassPath: string, urls: seq<string>, url: string, sep: char)
    ensures Classpath(javaClassPath, urls + [url], sep) == Classpath(javaClassPath, urls, sep) + [sep] + url
  {
    assert [javaClassPath] + (urls + [url]) == ([javaClassPath] + urls) + [url];
    JoinAppend([javaClassPath] + urls, url, sep);
  }

  lemma FirstIndexUnique(s: string, c: char, i: nat, j: nat)
    requires i < |s| && j < |s| && s[i] == c && s[j] == c
    requires c !in s[..i] && c !in s[..j]
    ensures i == j
  {
  }

  /** A string whose first separator is at `i` splits into what precedes it and the split of the rest. */
  lemma SplitAt(s: string, sep: char, i: nat)
    requires i < |s| && s[i] == sep && sep !in s[..i]
    ensures Split(s, sep) == [s[..i]] + Split(s[i + 1..], sep)
  {
    FirstIndexUnique(s, sep, IndexOf(s, sep), i);
  }

  /** A separator-free head before the first separator is split off whole. */
  lemma SplitHead(p: string, rest: string, sep: char)
    requires sep !in p
    ensures Split(p + [sep] + rest, sep) == [p] + Split(rest, sep)
  {
    var s := p + [sep] + rest;
    assert s[..|p|] == p;
    SplitAt(s, sep, |p|);
    assert s[|p| + 1..] == rest;
  }

  /** Splitting at a separator between two strings splits each of them. */
  lemma {:induction false} SplitConcat(x: string, y: string, sep: char)
    ensures Split(x + [sep] + y, sep) == Split(x, sep) + Split(y, sep)
    decreases |x|
  {
    if sep in x {
      var j := IndexOf(x, sep);
      var head, tail := x[..j], x[j + 1..];
      assert x == head + [sep] + tail;
      assert x + [sep] + y == head + [sep] + (tail + [sep] + y);
      SplitHead(head, tail, sep);
      SplitHead(head, tail + [sep] + y, sep);
      SplitConcat(tail, y, sep);
    } else {
      SplitHead(x, y, sep);
    }
  }

  /** Whatever the parts, splitting their join gives the pieces of each part in order. */
  lemma {:induction false} SplitJoinPieces(parts: seq<string>, sep: char)
    requires |parts| >= 1
    ensures Split(Join(parts, sep), sep) == SplitEach(parts, sep)
  {
    if |parts| == 1 {
      assert SplitEach(parts, sep) == Split(parts[0], sep) + SplitEach([], sep);
    } else {
      SplitConcat(parts[0], Join(parts[1..], sep), sep);
      SplitJoinPieces(parts[1..], sep);
    }
  }

  /**
   * For any entries, the class path reads back as the pieces of the JVM
   * class path followed by the pieces of each loader URL, in that order.
   */
  lemma ClasspathEntries(javaClassPath: string, urls: seq<string>, sep: char)
    ensures Split(Classpath(javaClassPath, urls, sep), sep) == Split(javaClassPath, sep) + SplitEach(urls, sep)
  {
    SplitJoinPieces([javaClassPath] + urls, sep);
    assert ([javaClassPath] + urls)[1..] == urls;
  }

  /**
   * A loader URL rendered as `scheme:path` (as `URL.toString` renders a
   * `file:` URL) is cut at a `:` separator: the compiler reads the scheme
   * and the path as two class path entries.
   */
  lemma ClasspathSplitsSchemeUrl(javaClassPath: string, scheme: string, path: string, sep: char)
    requires sep !in javaClassPath && sep !in scheme && sep !in path
    ensures Split(Classpath(javaClassPath, [scheme + [sep] + path], sep), sep) == [javaClassPath, scheme, path]
  {
    var url := scheme + [sep] + path;
    ClasspathEntries(javaClassPath, [url], sep);
    assert Split(javaClassPath, sep) == [javaClassPath];
    SplitConcat(scheme, path, sep);
    assert Split(scheme, sep) == [scheme] && Split(path, sep) == [path];
    assert SplitEach([url], sep) == Split(url, sep) + SplitEach([], sep);
    assert SplitEach([url], sep) == [scheme, path];
  }

  /**
   * When no entry contains the separator, the class path reads back as the
   * JVM class path followed by the loader URLs, in that order.
   */
  lemma ClasspathEntriesSeparatorFree(javaClassPath: string, urls: seq<string>, sep: char)
    requires sep !in javaClassPath
    requires forall i :: 0 <= i < |urls| ==> sep !in urls[i]
    ensures Split(Classpath(javaClassPath, urls, sep), sep) == [javaClassPath] + urls
  {
    var parts := [javaClassPath] + urls;
    forall i | 0 <= i < |parts| ensures sep !in parts[i] {
      if i > 0 { assert parts[i] == urls[i - 1]; }
    }
    SplitJoin(parts, sep);
  }
}

=== FILE: context.dfy ===
/**
 * The session context: the ordered history of successful evaluations.
 *
 * Only the append behaviour of `AddEvaluation` is fixed by the evaluator;
 * the views `Results`, `Classes` and `LastEvaluation` are the session-ordered
 * projections the evaluator's accessors forward to.
 */
module EvaluationContext {
  import opened Wrappers
  import opened Expressions

  /** A runtime value produced by executed code, known only by its identity. */
  datatype Object = Object(identity: nat)

  /** A named, session-visible value. */
  datatype Result = Result(key: string, value: Object)

  /** The permanent record of one successfully processed expression. */
  datatype Evaluation = Evaluation(
    className: string,
    sources: string,
    expression: Expression,
    result: Option<Result>)

  /** The results carried by `evs`, in session order. */
  function ResultsOf(evs: seq<Evaluation>): (rs: seq<Result>)
    ensures |rs| <= |evs|
    ensures forall r :: r in rs ==> exists i :: 0 <= i < |evs| && evs[i].result == Some(r)
  {
    if evs == [] then []
    else
      (if evs[0].result.Some? then [evs[0].result.value] else []) + ResultsOf(evs[1..])
  }

  /** The evaluations of class or interface declarations, in session order. */
  function ClassesOf(evs: seq<Evaluation>): (cs: seq<Evaluation>)
    ensures |cs| <= |evs|
    ensures forall e :: e in cs ==> e in evs && e.expression.ClassOrInterface?
  {
    if evs == [] then []
    else
      (if evs[0].expression.ClassOrInterface? then [evs[0]] else []) + ClassesOf(evs[1..])
  }

  datatype Context = Context(evaluations: seq<Evaluation>)
  {
    /** The context with `e` appended as its newest evaluation. */
    function AddEvaluation(e: Evaluation): (c: Context)
      ensures evaluations <= c.evaluations && |c.evaluations| == |evaluations| + 1
      ensures c.evaluations[|evaluations|] == e
    {
      Context(evaluations + [e])
    }

    /** The newest evaluation, if there is one. */
    function LastEvaluation(): (r: Option<Evaluation>)
      ensures r.None? <==> evaluations == []
      ensures r.Some? ==> r.value == evaluations[|evaluations| - 1]
    {
      if evaluations == [] then None else Some(evaluations[|evaluations| - 1])
    }

    function Results(): (rs: seq<Result>) {
      ResultsOf(evaluations)
    }

    function Classes(): (cs: seq<Evaluation>) {
      ClassesOf(evaluations)
    }
  }

  /** The context a new or cleared session starts from. */
  function EmptyContext(): (c: Context)
    ensures c.evaluations == []
  {
    Context([])
  }

  lemma {:induction false} ResultsOfAppend(evs: seq<Evaluation>, e: Evaluation)
    ensures ResultsOf(evs + [e]) ==
            ResultsOf(evs) + (if e.result.Some? then [e.result.value] else [])
  {
    if evs != [] {
      assert (evs + [e])[1..] == evs[1..] + [e];
      ResultsOfAppend(evs[1..], e);
    }
  }

  lemma {:induction false} ClassesOfAppend(evs: seq<Evaluation>, e: Evaluation)
    ensures ClassesOf(evs + [e]) ==
            ClassesOf(evs) + (if e.expression.ClassOrInterface? then [e] else [])
  {
    if evs != [] {
      assert (evs + [e])[1..] == evs[1..] + [e];
      ClassesOfAppend(evs[1..], e);
    }
  }

  /**
   * Appending an evaluation makes it the last one, adds its result (if any)
   * at the end of the results, and adds it at the end of the classes exactly
   * when it declares a class or interface.
   */
  lemma AddEvaluationViews(c: Context, e: Evaluation)
    ensures c.AddEvaluation(e).LastEvaluation() == Some(e)
    ensures c.AddEvaluation(e).Results() ==
            c.Results() + (if e.result.Some? then [e.result.value] else [])
    ensures c.AddEvaluation(e).Classes() ==
            c.Classes() + (if e.expression.ClassOrInterface? then [e] else [])
  {
    ResultsOfAppend(c.evaluations, e);
    ClassesOfAppend(c.evaluations, e);
  }

  /** The empty context has no last evaluation, no results and no classes. */
  lemma EmptyContextViews()
    ensures EmptyContext().LastEvaluation() == None
    ensures EmptyContext().Results() == []
    ensures EmptyContext().Classes() == []
  {
  }
}

=== FILE: evaluator.dfy ===
/**
 * The evaluator object: it owns the session context, a class loader (the
 * names it has loaded and its URLs) and an output directory (its file
 * names, ghost). Each method is proved to take the state exactly as the
 * matching function of `EvaluatorSpec` does.
 *
 * The random identifiers of generated classes are parameters: `first`
 * names the class generated for the first attempt, `second` the one for
 * the retry.
 */
module Javarepl {
  import opened Wrappers
  import opened Expressions
  import opened EvaluationContext
  import opened Compilation
  import opened EvaluatorSpec

  class Evaluator {
    const world: World
    var context: Context
    var loaded: set<string>
    var urls: seq<string>
    ghost var files: set<string>

    ghost function State(): Session
      reads this
    {
      Session(context, loaded, urls, files)
    }

    /** A new evaluator: empty context, and a loader whose only URL is the output directory. */
    constructor (world: World, outputDirectoryUrl: string)
      ensures this.world == world
      ensures context == EmptyContext() && loaded == {} && urls == [outputDirectoryUrl] && files == {}
      ensures HistoryLoaded(State()) && DistinctUrls(urls)
    {
      this.world := world;
      context := EmptyContext();
      loaded := {};
      urls := [outputDirectoryUrl];
      files := {};
    }

    method Evaluate(text: string, first: string, second: string) returns (r: Either<Throwable, Evaluation>)
      modifies this
      ensures Step(r, State()) == EvaluatorSpec.Evaluate(world, old(State()), text, first, second)
      ensures urls == old(urls) && old(loaded) <= loaded
      ensures old(context).evaluations <= context.evaluations
    {
      var cached := world.rules.evaluationForResult(context, text);
      if cached.Some? {
        return Right(cached.value);
      }
      var expression := CreateExpression(world.patterns, text);
      r := Dispatch(expression, first);
      if IsCompilationFailure(r) {
        r := Dispatch(Statement(text), second);
      }
    }

    method LastEvaluation() returns (r: Option<Evaluation>)
      ensures r.None? <==> context.evaluations == []
      ensures r.Some? ==> r.value == context.evaluations[|context.evaluations| - 1]
    {
      r := context.LastEvaluation();
    }

    method Results() returns (rs: seq<Result>)
      ensures rs == context.Results()
      ensures forall x :: x in rs ==> exists e :: e in context.evaluations && e.result == Some(x)
    {
      rs := context.Results();
    }

    method Classes() returns (cs: seq<Evaluation>)
      ensures cs == context.Classes()
      ensures forall e :: e in cs ==> e in context.evaluations && e.expression.ClassOrInterface?
    {
      cs := context.Classes();
    }

    /** Resets the context; the loader keeps every class it has loaded. */
    method Clear()
      modifies this
      ensures State() == EvaluatorSpec.Clear(old(State()))
      ensures context.Results() == [] && loaded == old(loaded)
    {
      context := EmptyContext();
      EmptyContextViews();
    }

    /** Hands a URL to the loader, which ignores a URL it already has. */
    method AddClasspathUrl(url: string)
      modifies this
      ensures State() == EvaluatorSpec.AddClasspathUrl(old(State()), url)
      ensures url in urls && context == old(context)
    {
      if url !in urls {
        urls := urls + [url];
      }
    }

    method Dispatch(expression: Expression, name: string) returns (r: Either<Throwable, Evaluation>)
      modifies this
      ensures Step(r, State()) == EvaluatorSpec.Dispatch(world, old(State()), expression, name)
    {
      if expression.ClassOrInterface? {
        r := EvaluateClass(expression);
        var _ := EvaluateExpression(expression, name);
      } else {
        r := EvaluateExpression(expression, name);
      }
    }

    method EvaluateClass(expression: Expression) returns (r: Either<Throwable, Evaluation>)
      requires expression.ClassOrInterface?
      modifies this
      ensures Step(r, State()) == EvaluatorSpec.EvaluateClass(world, old(State()), expression)
    {
      if expression.typeName in loaded {
        return Left(UnsupportedOperationException(RedefinitionMessage));
      }
      var java := JavaFile(expression.typeName);
      var sources := world.toolchain.render(context, expression.typeName, expression);
      files := files + {java};
      var failure := Compile(java, sources);
      if failure.Some? {
        return Left(failure.value);
      }
      files := files + {ClassFile(expression.typeName)};
      var loading := world.toolchain.loadClass(expression.typeName, urls);
      if loading.LoadFailed? {
        return Left(loading.error);
      }
      loaded := loaded + {expression.typeName};
      var evaluation := Evaluation(expression.typeName, sources, expression, None);
      context := context.AddEvaluation(evaluation);
      r := Right(evaluation);
    }

    method EvaluateExpression(expression: Expression, name: string) returns (r: Either<Throwable, Evaluation>)
      modifies this
      ensures Step(r, State()) == EvaluatorSpec.EvaluateExpression(world, old(State()), expression, name)
    {
      var java, classFile := JavaFile(name), ClassFile(name);
      var sources := world.toolchain.render(context, name, expression);
      files := files + {java};
      var failure := Compile(java, sources);
      if failure.Some? {
        r := Left(failure.value);
      } else {
        files := files + {classFile};
        var loading := world.toolchain.loadClass(name, urls);
        if loading.LoadFailed? {
          r := Left(loading.error);
        } else {
          loaded := loaded + {name};
          match world.toolchain.execute(name, sources, context)
          case Threw(error) =>
            r := Left(error);
          case ReturnedNull =>
            var evaluation := Evaluation(name, sources, expression, None);
            context := context.AddEvaluation(evaluation);
            r := Right(evaluation);
          case Returned(value) =>
            var evaluation := Evaluation(name, sources, expression, Some(Result(NextResultKeyFor(world.rules, context, expression), value)));
            context := context.AddEvaluation(evaluation);
            r := Right(evaluation);
        }
      }
      // the generated files are removed on every exit path
      files := files - {java, classFile};
    }

    /**
     * Compiles `file` with the JVM class path followed by the loader's URLs;
     * fails with the exit code and diagnostics exactly when the compiler
     * exits with a non-zero code.
     */
    method Compile(file: string, sources: string) returns (failure: Option<Throwable>)
      ensures
        var run := world.toolchain.javac(Classpath(world.toolchain.javaClassPath, urls, world.toolchain.pathSeparator), file, sources);
        && (failure.None? <==> run.exitCode == 0)
        && (failure.Some? ==> failure.value == ExpressionCompilationException(run.exitCode, run.diagnostics))
    {
      var classpath := Classpath(world.toolchain.javaClassPath, urls, world.toolchain.pathSeparator);
      var run := world.toolchain.javac(classpath, file, sources);
      if run.exitCode != 0 {
        failure := Some(ExpressionCompilationException(run.exitCode, run.diagnostics));
      } else {
        failure := None;
      }
    }
  }
}

=== FILE: evaluator_spec.dfy ===
/**
 * The evaluator's operations as functions of an explicit session value.
 *
 * Everything the evaluator delegates is a parameter here (`World`): the
 * classification tests, source rendering, the Java compiler, the class
 * loader, running the generated class, and the two context rules whose
 * code is not part of this model (the cache lookup by text and the next
 * generated result key). The class `Javarepl.Evaluator` is proved to
 * follow these functions step for step.
 */
module EvaluatorSpec {
  import opened Wrappers
  import opened Expressions
  import opened EvaluationContext
  import opened Compilation

  /** What instantiating the generated class and calling `init` and `evaluate` on it gives. */
  datatype Execution = Threw(error: Throwable) | ReturnedNull | Returned(value: Object)

  /** What asking the class loader for a class gives. */
  datatype Loading = Loaded | LoadFailed(error: Throwable)

  /** The external tools: source rendering, compiler, class loader and reflective execution. */
  datatype Toolchain = Toolchain(
    javaClassPath: string,
    pathSeparator: char,
    render: (Context, string, Expression) -> string,
    javac: (string, string, string) -> CompilerRun,
    loadClass: (string, seq<string>) -> Loading,
    execute: (string, string, Context) -> Execution)

  /** The context's own rules: the cached evaluation for a text, and the next generated key. */
  datatype ContextRules = ContextRules(
    evaluationForResult: (Context, string) -> Option<Evaluation>,
    nextResultKey: Context -> string)

  datatype World = World(patterns: Patterns, toolchain: Toolchain, rules: ContextRules)

  /**
   * The evaluator's state: its context, the names of the classes its loader
   * holds, the loader's URLs, and the names of the files in its output
   * directory.
   */
  datatype Session = Session(context: Context, loaded: set<string>, urls: seq<string>, files: set<string>)

  /** What one evaluation step returns, and the state after it. */
  datatype Step = Step(outcome: Either<Throwable, Evaluation>, after: Session)

  const RedefinitionMessage := "Redefining classes not supported"

  function JavaFile(name: string): string { name + ".java" }
  function ClassFile(name: string): string { name + ".class" }

  /** The retry test: the outcome is a failure that is an `ExpressionCompilationException`. */
  predicate IsCompilationFailure(r: Either<Throwable, Evaluation>)
    ensures IsCompilationFailure(r) <==>
      exists code: int, diagnostics: string :: r == Left(ExpressionCompilationException(code, diagnostics))
  {
    if r.Left? && r.left.ExpressionCompilationException? then
      assert r == Left(ExpressionCompilationException(r.left.errorCode, r.left.diagnostics));
      true
    else false
  }

  /**
   * Classifies `text`, testing in a fixed order: import, then class or
   * interface, then assignment with a type, then assignment; text that
   * passes none of the tests is a value.
   */
  function CreateExpression(p: Patterns, text: string): (e: Expression)
    ensures e.source == text && !e.Statement?
    ensures e.Import? <==> p.isValidImport(text)
    ensures e.ClassOrInterface? <==>
      !p.isValidImport(text) && (p.isValidClass(text) || p.isValidInterface(text))
    ensures e.AssignmentWithType? <==>
      !p.isValidImport(text) && !p.isValidClass(text) && !p.isValidInterface(text) &&
      p.isValidAssignmentWithType(text)
    ensures e.Assignment? <==>
      !p.isValidImport(text) && !p.isValidClass(text) && !p.isValidInterface(text) &&
      !p.isValidAssignmentWithType(text) && p.isValidAssignment(text)
    ensures e.Value? <==>
      !p.isValidImport(text) && !p.isValidClass(text) && !p.isValidInterface(text) &&
      !p.isValidAssignmentWithType(text) && !p.isValidAssignment(text)
    ensures e.ClassOrInterface? ==> e.typeName == p.declaredType(text)
    ensures e.AssignmentWithType? ==> e.key == p.typedAssignmentKey(text)
    ensures e.Assignment? ==> e.key == p.assignmentKey(text)
  {
    if p.isValidImport(text) then Import(text)
    else if p.isValidClass(text) || p.isValidInterface(text) then ClassOrInterface(text, p.declaredType(text))
    else if p.isValidAssignmentWithType(text) then AssignmentWithType(text, p.typedAssignmentKey(text))
    else if p.isValidAssignment(text) then Assignment(text, p.assignmentKey(text))
    else Value(text)
  }

  /** The key a produced value is recorded under: an assignment's own key, otherwise the context's next generated key. */
  function NextResultKeyFor(rules: ContextRules, c: Context, e: Expression): (key: string)
    ensures e.IsWithKey() ==> key == e.key
    ensures !e.IsWithKey() ==> key == rules.nextResultKey(c)
  {
    if e.IsWithKey() then e.key else rules.nextResultKey(c)
  }

  /** Runs the compiler on `file` with the class path built from the loader's `urls`. */
  function Compile(t: Toolchain, urls: seq<string>, file: string, sources: string): (failure: Option<Throwable>)
    ensures
      var run := t.javac(Classpath(t.javaClassPath, urls, t.pathSeparator), file, sources);
      && (failure.None? <==> run.exitCode == 0)
      && (failure.Some? ==> failure.value == ExpressionCompilationException(run.exitCode, run.diagnostics))
  {
    CompileOutcome(t.javac(Classpath(t.javaClassPath, urls, t.pathSeparator), file, sources))
  }

  /**
   * Declares a class or interface: rejected when its type is already
   * loaded; otherwise its source file is written, compiled and loaded, and
   * the declaration is recorded under its type name with no result. The
   * source file is never removed.
   */
  function EvaluateClass(w: World, s: Session, e: Expression): (st: Step)
    requires e.ClassOrInterface?
    ensures e.typeName in s.loaded ==>
      st == Step(Left(UnsupportedOperationException(RedefinitionMessage)), s)
    ensures st.after.urls == s.urls
    ensures st.outcome.Right? <==>
      e.typeName !in s.loaded &&
      Compile(w.toolchain, s.urls, JavaFile(e.typeName), w.toolchain.render(s.context, e.typeName, e)).None? &&
      w.toolchain.loadClass(e.typeName, s.urls).Loaded?
    ensures st.outcome.Right? ==>
      && st.outcome.right == Evaluation(e.typeName, w.toolchain.render(s.context, e.typeName, e), e, None)
      && st.after.context == s.context.AddEvaluation(st.outcome.right)
      && st.after.loaded == s.loaded + {e.typeName}
    ensures st.outcome.Left? ==> st.after.context == s.context && st.after.loaded == s.loaded
    ensures
      var sources := w.toolchain.render(s.context, e.typeName, e);
      var failure := Compile(w.toolchain, s.urls, JavaFile(e.typeName), sources);
      && (e.typeName !in s.loaded && failure.Some? ==> st.outcome == Left(failure.value))
      && (e.typeName !in s.loaded && failure.None? && w.toolchain.loadClass(e.typeName, s.urls).LoadFailed? ==>
            st.outcome == Left(w.toolchain.loadClass(e.typeName, s.urls).error))
    ensures e.typeName !in s.loaded ==>
      && s.files + {JavaFile(e.typeName)} <= st.after.files
      && st.after.files <= s.files + {JavaFile(e.typeName), ClassFile(e.typeName)}
  {
    if e.typeName in s.loaded then
      Step(Left(UnsupportedOperationException(RedefinitionMessage)), s)
    else
      var java := JavaFile(e.typeName);
      var sources := w.toolchain.render(s.context, e.typeName, e);
      var written := s.(files := s.files + {java});
      match Compile(w.toolchain, s.urls, java, sources)
      case Some(failure) => Step(Left(failure), written)
      case None =>
        var compiled := written.(files := written.files + {ClassFile(e.typeName)});
        match w.toolchain.loadClass(e.typeName, s.urls)
        case LoadFailed(failure) => Step(Left(failure), compiled)
        case Loaded =>
          var evaluation := Evaluation(e.typeName, sources, e, None);
          Step(Right(evaluation), compiled.(loaded := compiled.loaded + {e.typeName},
                                            context := s.context.AddEvaluation(evaluation)))
  }

  /**
   * Evaluates any expression through a generated class called `name`:
   * render, write, compile, load, execute. Success appends one evaluation
   * that carries a result exactly when execution returned a value; both
   * generated files are gone afterwards on every path.
   */
  function EvaluateExpression(w: World, s: Session, e: Expression, name: string): (st: Step)
    ensures st.after.urls == s.urls
    ensures st.after.files == s.files - {JavaFile(name), ClassFile(name)}
    ensures
      var t := w.toolchain;
      var sources := t.render(s.context, name, e);
      var compiled := Compile(t, s.urls, JavaFile(name), sources).None?;
      var loaded := compiled && t.loadClass(name, s.urls).Loaded?;
      var run := t.execute(name, sources, s.context);
      && (st.outcome.Right? <==> loaded && !run.Threw?)
      && (!compiled ==> st.outcome == Left(Compile(t, s.urls, JavaFile(name), sources).value))
      && (compiled && !loaded ==> st.outcome == Left(t.loadClass(name, s.urls).error))
      && (loaded && run.Threw? ==> st.outcome == Left(run.error))
      && st.after.loaded == (if loaded then s.loaded + {name} else s.loaded)
      && (st.outcome.Right? ==>
            && st.outcome.right.className == name
            && st.outcome.right.sources == sources
            && st.outcome.right.expression == e
            && st.after.context == s.context.AddEvaluation(st.outcome.right)
            && (st.outcome.right.result.Some? <==> run.Returned?)
            && (run.Returned? ==>
                  st.outcome.right.result.value == Result(NextResultKeyFor(w.rules, s.context, e), run.value)))
    ensures st.outcome.Left? ==> st.after.context == s.context
  {
    var t := w.toolchain;
    var java, classFile := JavaFile(name), ClassFile(name);
    var sources := t.render(s.context, name, e);
    var cleaned := s.files - {java, classFile};
    match Compile(t, s.urls, java, sources)
    case Some(failure) => Step(Left(failure), s.(files := cleaned))
    case None =>
      match t.loadClass(name, s.urls)
      case LoadFailed(failure) => Step(Left(failure), s.(files := cleaned))
      case Loaded =>
        var withClass := s.(loaded := s.loaded + {name}, files := cleaned);
        match t.execute(name, sources, s.context)
        case Threw(failure) => Step(Left(failure), withClass)
        case ReturnedNull =>
          var evaluation := Evaluation(name, sources, e, None);
          Step(Right(evaluation), withClass.(context := s.context.AddEvaluation(evaluation)))
        case Returned(value) =>
          var result := Result(NextResultKeyFor(w.rules, s.context, e), value);
          var evaluation := Evaluation(name, sources, e, Some(result));
          Step(Right(evaluation), withClass.(context := s.context.AddEvaluation(evaluation)))
  }

  /**
   * Dispatch on the expression kind. A class or interface goes to the class
   * path and its outcome is returned; the expression path then runs as well
   * (its argument is evaluated eagerly), and keeps its effect on the state.
   * Every other kind goes to the expression path alone.
   */
  function Dispatch(w: World, s: Session, e: Expression, name: string): (st: Step)
    ensures e.ClassOrInterface? ==> st.outcome == EvaluateClass(w, s, e).outcome
    ensures e.ClassOrInterface? ==> st.after == EvaluateExpression(w, EvaluateClass(w, s, e).after, e, name).after
    ensures !e.ClassOrInterface? ==> st == EvaluateExpression(w, s, e, name)
    ensures e.ClassOrInterface? ==>
      var declared := EvaluateClass(w, s, e).after;
      && st.after.files == declared.files - {JavaFile(name), ClassFile(name)}
      && declared.loaded <= st.after.loaded <= declared.loaded + {name}
      && (|| st.after.context == declared.context
          || exists ev: Evaluation :: ev.className == name && ev.expression == e &&
               st.after.context == declared.context.AddEvaluation(ev))
    ensures !e.ClassOrInterface? && st.outcome.Right? ==> st.outcome.right.className == name
    ensures !e.ClassOrInterface? && st.outcome.Left? ==> st.after.context == s.context
    ensures !e.ClassOrInterface? && st.outcome.Right? ==>
      st.after.context == s.context.AddEvaluation(st.outcome.right)
    ensures st.after.urls == s.urls && s.loaded <= st.after.loaded
    ensures s.context.evaluations <= st.after.context.evaluations
    ensures |st.after.context.evaluations| <=
      |s.context.evaluations| + (if e.ClassOrInterface? then 2 else 1)
  {
    if e.ClassOrInterface? then
      var declared := EvaluateClass(w, s, e);
      var eager := EvaluateExpression(w, declared.after, e, name);
      Step(declared.outcome, eager.after)
    else
      EvaluateExpression(w, s, e, name)
  }

  /**
   * Evaluates raw text. A text the context has a cached evaluation for
   * returns it and changes nothing. Otherwise the text is classified and
   * dispatched with the generated name `first`; when that fails to compile,
   * the same text is dispatched once more as a statement with the generated
   * name `second`, and that attempt's outcome is returned.
   */
  function Evaluate(w: World, s: Session, text: string, first: string, second: string): (st: Step)
    ensures w.rules.evaluationForResult(s.context, text).Some? ==>
      st == Step(Right(w.rules.evaluationForResult(s.context, text).value), s)
    ensures st.after.urls == s.urls && s.loaded <= st.after.loaded
    ensures s.context.evaluations <= st.after.context.evaluations
    ensures |st.after.context.evaluations| <= |s.context.evaluations| + 2
  {
    match w.rules.evaluationForResult(s.context, text)
    case Some(cached) => Step(Right(cached), s)
    case None =>
      var attempt := Dispatch(w, s, CreateExpression(w.patterns, text), first);
      if IsCompilationFailure(attempt.outcome) then
        Dispatch(w, attempt.after, Statement(text), second)
      else
        attempt
  }

  /** Resets the context only; the loader, its URLs and the output directory are kept. */
  function Clear(s: Session): (s': Session)
    ensures s'.context == EmptyContext()
    ensures s'.loaded == s.loaded && s'.urls == s.urls && s'.files == s.files
  {
    s.(context := EmptyContext())
  }

  /**
   * Adds a URL to the loader: appended at the end unless the loader already
   * has it, in which case nothing changes. Nothing else is touched.
   */
  function AddClasspathUrl(s: Session, url: string): (s': Session)
    ensures url in s'.urls
    ensures url in s.urls ==> s'.urls == s.urls
    ensures url !in s.urls ==> s'.urls == s.urls + [url]
    ensures s'.context == s.context && s'.loaded == s.loaded && s'.files == s.files
  {
    if url in s.urls then s else s.(urls := s.urls + [url])
  }

  /** The loader never holds the same URL twice. */
  predicate DistinctUrls(urls: seq<string>) {
    forall i, j :: 0 <= i < j < |urls| ==> urls[i] != urls[j]
  }

  /** Adding a URL keeps the loader's URLs free of duplicates. */
  lemma AddClasspathUrlKeepsDistinct(s: Session, url: string)
    requires DistinctUrls(s.urls)
    ensures DistinctUrls(AddClasspathUrl(s, url).urls)
  {
    if url !in s.urls {
      var urls' := s.urls + [url];
      forall i, j | 0 <= i < j < |urls'| ensures urls'[i] != urls'[j] {
        if j == |s.urls| { assert urls'[i] == s.urls[i]; }
      }
    }
  }

  /** The first attempt misses the cache and fails to compile, so the text is retried. */
  predicate Retried(w: World, s: Session, text: string, first: string) {
    && w.rules.evaluationForResult(s.context, text).None?
    && IsCompilationFailure(Dispatch(w, s, CreateExpression(w.patterns, text), first).outcome)
  }

  /**
   * There is at most one retry, it happens only after a compilation
   * failure, it reads the same text as a statement, and its outcome is
   * what is returned, failure included.
   */
  lemma RetryPolicy(w: World, s: Session, text: string, first: string, second: string)
    requires w.rules.evaluationForResult(s.context, text).None?
    ensures var attempt := Dispatch(w, s, CreateExpression(w.patterns, text), first);
      && (!Retried(w, s, text, first) ==> Evaluate(w, s, text, first, second) == attempt)
      && (Retried(w, s, text, first) ==>
            Evaluate(w, s, text, first, second) == Dispatch(w, attempt.after, Statement(text), second))
    ensures var st := Evaluate(w, s, text, first, second);
      st.outcome.Right? ==>
        (st.outcome.right.expression == Statement(text) <==> Retried(w, s, text, first))
  {
  }

  /**
   * For text that is not a class or interface declaration (and not
   * cached), a failure leaves the context as it was, and a success appends
   * exactly the returned evaluation. A produced value is keyed by the
   * assignment's own key, or by the next generated key of the unchanged
   * context.
   */
  lemma ContextDiscipline(w: World, s: Session, text: string, first: string, second: string)
    requires w.rules.evaluationForResult(s.context, text).None?
    requires !CreateExpression(w.patterns, text).ClassOrInterface?
    ensures var st := Evaluate(w, s, text, first, second);
      && (st.outcome.Left? ==> st.after.context == s.context)
      && (st.outcome.Right? ==> st.after.context == s.context.AddEvaluation(st.outcome.right))
      && (st.outcome.Right? && st.outcome.right.result.Some? ==>
            st.outcome.right.result.value.key == NextResultKeyFor(w.rules, s.context, st.outcome.right.expression))
  {
  }

  /**
   * Text with no cached evaluation that declares a type the loader already
   * holds is rejected with the redefinition failure, without a retry; the context changes only if the
   * eagerly run expression path succeeds.
   */
  lemma RedefinitionRejected(w: World, s: Session, text: string, first: string, second: string)
    requires w.rules.evaluationForResult(s.context, text).None?
    requires CreateExpression(w.patterns, text).ClassOrInterface?
    requires CreateExpression(w.patterns, text).typeName in s.loaded
    ensures var st := Evaluate(w, s, text, first, second);
      var eager := EvaluateExpression(w, s, CreateExpression(w.patterns, text), first);
      && st.outcome == Left(UnsupportedOperationException(RedefinitionMessage))
      && st.after == eager.after
      && (eager.outcome.Left? ==> st.after.context == s.context)
  {
  }

  /** A successful declaration leaves its type among the loaded classes and records no result. */
  lemma DeclarationLoadsType(w: World, s: Session, text: string, first: string, second: string)
    requires w.rules.evaluationForResult(s.context, text).None?
    requires CreateExpression(w.patterns, text).ClassOrInterface?
    ensures var st := Evaluate(w, s, text, first, second);
      st.outcome.Right? && st.outcome.right.expression.ClassOrInterface? ==>
        && st.outcome.right.className == CreateExpression(w.patterns, text).typeName
        && st.outcome.right.result.None?
        && st.outcome.right.className in st.after.loaded
        && st.outcome.right in st.after.context.evaluations
  {
    var e := CreateExpression(w.patterns, text);
    var declared := EvaluateClass(w, s, e);
    var st := Evaluate(w, s, text, first, second);
    if st.outcome.Right? && st.outcome.right.expression.ClassOrInterface? {
      assert st == Dispatch(w, s, e, first);
      var n := |s.context.evaluations|;
      assert declared.after.context.evaluations[n] == st.outcome.right;
      assert declared.after.context.evaluations <= st.after.context.evaluations;
      assert st.after.context.evaluations[n] == st.outcome.right;
    }
  }

  /**
   * A declaration that gets past the redefinition check but fails to
   * compile reaches the caller's retry test as a compilation failure, so
   * the same text is evaluated once more as a statement.
   */
  lemma DeclarationCompileFailureRetried(w: World, s: Session, text: string, first: string, second: string)
    requires w.rules.evaluationForResult(s.context, text).None?
    requires CreateExpression(w.patterns, text).ClassOrInterface?
    requires
      var e := CreateExpression(w.patterns, text);
      && e.typeName !in s.loaded
      && Compile(w.toolchain, s.urls, JavaFile(e.typeName), w.toolchain.render(s.context, e.typeName, e)).Some?
    ensures Retried(w, s, text, first)
    ensures Evaluate(w, s, text, first, second) ==
            Dispatch(w, Dispatch(w, s, CreateExpression(w.patterns, text), first).after, Statement(text), second)
  {
  }

  /**
   * With generated names that name no file in the output directory, an
   * evaluation leaves behind at most the source and class file of a
   * declared type, and the source file of a declaration that got past the
   * redefinition check stays.
   */
  lemma TemporaryFiles(w: World, s: Session, text: string, first: string, second: string)
    requires JavaFile(first) !in s.files && ClassFile(first) !in s.files
    requires JavaFile(second) !in s.files && ClassFile(second) !in s.files
    ensures var st := Evaluate(w, s, text, first, second);
      var e := CreateExpression(w.patterns, text);
      && (!e.ClassOrInterface? ==> st.after.files == s.files)
      && (e.ClassOrInterface? ==>
            st.after.files <= s.files + {JavaFile(e.typeName), ClassFile(e.typeName)})
      && (e.ClassOrInterface? && e.typeName !in s.loaded && e.typeName != first && e.typeName != second &&
          w.rules.evaluationForResult(s.context, text).None? ==>
            JavaFile(e.typeName) in st.after.files)
  {
    var e := CreateExpression(w.patterns, text);
    if w.rules.evaluationForResult(s.context, text).None? && e.ClassOrInterface? && e.typeName !in s.loaded
       && e.typeName != first && e.typeName != second {
      JavaFileInjective(e.typeName, first);
      JavaFileInjective(e.typeName, second);
      JavaFileNotClassFile(e.typeName, first);
      JavaFileNotClassFile(e.typeName, second);
    }
  }

  lemma JavaFileInjective(a: string, b: string)
    requires a != b
    ensures JavaFile(a) != JavaFile(b)
  {
    if |a| == |b| {
      var i :| 0 <= i < |a| && a[i] != b[i];
      assert JavaFile(a)[i] != JavaFile(b)[i];
    } else {
      assert |JavaFile(a)| != |JavaFile(b)|;
    }
  }

  lemma JavaFileNotClassFile(a: string, b: string)
    ensures JavaFile(a) != ClassFile(b)
  {
    var ja, cb := JavaFile(a), ClassFile(b);
    if |ja| == |cb| {
      assert ja[|ja| - 1] == 'a' && cb[|cb| - 1] == 's';
    }
  }

  /** Clearing empties the history and its views but keeps every loaded class. */
  lemma ClearResetsHistoryOnly(s: Session)
    ensures Clear(s).context.LastEvaluation() == None
    ensures Clear(s).context.Results() == [] && Clear(s).context.Classes() == []
    ensures Clear(s).loaded == s.loaded
  {
  }

  /** A class loaded before `clear` is still rejected after it, unless the emptied context caches the text. */
  lemma RedefinitionSurvivesClear(w: World, s: Session, text: string, first: string, second: string)
    requires w.rules.evaluationForResult(EmptyContext(), text).None?
    requires CreateExpression(w.patterns, text).ClassOrInterface?
    requires CreateExpression(w.patterns, text).typeName in s.loaded
    ensures Evaluate(w, Clear(s), text, first, second).outcome ==
            Left(UnsupportedOperationException(RedefinitionMessage))
  {
  }

  /** Adding a URL extends the compiler's class path by that URL at the end. */
  lemma AddClasspathUrlExtendsClasspath(t: Toolchain, s: Session, url: string)
    ensures url !in s.urls ==>
      Classpath(t.javaClassPath, AddClasspathUrl(s, url).urls, t.pathSeparator) ==
      Classpath(t.javaClassPath, s.urls, t.pathSeparator) + [t.pathSeparator] + url
    ensures url in s.urls ==>
      Classpath(t.javaClassPath, AddClasspathUrl(s, url).urls, t.pathSeparator) ==
      Classpath(t.javaClassPath, s.urls, t.pathSeparator)
  {
    ClasspathAddUrl(t.javaClassPath, s.urls, url, t.pathSeparator);
  }

  /** The operations a caller can apply to an evaluator, one after another. */
  datatype Command =
    | EvaluateText(text: string, first: string, second: string)
    | ClearContext
    | AddUrl(url: string)

  function Apply(w: World, s: Session, c: Command): (s': Session) {
    match c
    case EvaluateText(text, first, second) => Evaluate(w, s, text, first, second).after
    case ClearContext => Clear(s)
    case AddUrl(url) => AddClasspathUrl(s, url)
  }

  function Run(w: World, s: Session, cmds: seq<Command>): (s': Session)
    decreases |cmds|
  {
    if cmds == [] then s else Run(w, Apply(w, s, cmds[0]), cmds[1..])
  }

  /** No sequence of operations ever unloads a class. */
  lemma {:induction false} RunKeepsLoaded(w: World, s: Session, cmds: seq<Command>)
    ensures s.loaded <= Run(w, s, cmds).loaded
    decreases |cmds|
  {
    if cmds != [] {
      RunKeepsLoaded(w, Apply(w, s, cmds[0]), cmds[1..]);
    }
  }

  /**
   * Every evaluation in the history names a class the loader holds: each was
   * compiled and loaded before it was recorded.
   */
  predicate HistoryLoaded(s: Session) {
    forall ev :: ev in s.context.evaluations ==> ev.className in s.loaded
  }

  /** A declaration records its evaluation only once its class is loaded. */
  lemma EvaluateClassKeepsHistoryLoaded(w: World, s: Session, e: Expression)
    requires e.ClassOrInterface? && HistoryLoaded(s)
    ensures HistoryLoaded(EvaluateClass(w, s, e).after)
  {
  }

  /** An expression records its evaluation only once its class is loaded. */
  lemma EvaluateExpressionKeepsHistoryLoaded(w: World, s: Session, e: Expression, name: string)
    requires HistoryLoaded(s)
    ensures HistoryLoaded(EvaluateExpression(w, s, e, name).after)
  {
  }

  lemma DispatchKeepsHistoryLoaded(w: World, s: Session, e: Expression, name: string)
    requires HistoryLoaded(s)
    ensures HistoryLoaded(Dispatch(w, s, e, name).after)
  {
    if e.ClassOrInterface? {
      EvaluateClassKeepsHistoryLoaded(w, s, e);
      EvaluateExpressionKeepsHistoryLoaded(w, EvaluateClass(w, s, e).after, e, name);
    } else {
      EvaluateExpressionKeepsHistoryLoaded(w, s, e, name);
    }
  }

  lemma EvaluateKeepsHistoryLoaded(w: World, s: Session, text: string, first: string, second: string)
    requires HistoryLoaded(s)
    ensures HistoryLoaded(Evaluate(w, s, text, first, second).after)
  {
    if w.rules.evaluationForResult(s.context, text).None? {
      var attempt := Dispatch(w, s, CreateExpression(w.patterns, text), first);
      DispatchKeepsHistoryLoaded(w, s, CreateExpression(w.patterns, text), first);
      DispatchKeepsHistoryLoaded(w, attempt.after, Statement(text), second);
    }
  }

  /**
   * Over any sequence of evaluations, clears and URL additions, every
   * evaluation in the history stays backed by a class the loader holds.
   */
  lemma {:induction false} RunKeepsHistoryLoaded(w: World, s: Session, cmds: seq<Command>)
    requires HistoryLoaded(s)
    ensures HistoryLoaded(Run(w, s, cmds))
    decreases |cmds|
  {
    if cmds != [] {
      if cmds[0].EvaluateText? {
        EvaluateKeepsHistoryLoaded(w, s, cmds[0].text, cmds[0].first, cmds[0].second);
      }
      RunKeepsHistoryLoaded(w, Apply(w, s, cmds[0]), cmds[1..]);
    }
  }

  /**
   * Once a type is loaded, declaring it again is rejected after any
   * operations, `clear` included, unless the context then caches the text.
   */
  lemma RedefinitionStaysRejected(w: World, s: Session, cmds: seq<Command>, text: string, first: string, second: string)
    requires CreateExpression(w.patterns, text).ClassOrInterface?
    requires CreateExpression(w.patterns, text).typeName in s.loaded
    requires w.rules.evaluationForResult(Run(w, s, cmds).context, text).None?
    ensures Evaluate(w, Run(w, s, cmds), text, first, second).outcome ==
            Left(UnsupportedOperationException(RedefinitionMessage))
  {
    RunKeepsLoaded(w, s, cmds);
    RedefinitionRejected(w, Run(w, s, cmds), text, first, second);
  }
}

=== FILE: expressions.dfy ===
/**
 * The kinds of input expression the evaluator distinguishes, and the
 * syntactic tests it classifies raw text with.
 *
 * The expression classes and the regular expressions behind the tests are
 * not part of this model: each test is an arbitrary predicate on the text,
 * and the parts an expression extracts from its text (the declared type of
 * a class, the variable of an assignment) are arbitrary functions of it.
 */
module Expressions {

  /** One classified input; every kind keeps its source text verbatim. */
  datatype Expression =
    | Import(source: string)
    | ClassOrInterface(source: string, typeName: string)
    | AssignmentWithType(source: string, key: string)
    | Assignment(source: string, key: string)
    | Value(source: string)
    | Statement(source: string)
  {
    /** The kinds that name their own result key (the assignments). */
    predicate IsWithKey() {
      AssignmentWithType? || Assignment?
    }
  }

  /** The classification tests and the parsers the expression kinds use. */
  datatype Patterns = Patterns(
    isValidImport: string -> bool,
    isValidClass: string -> bool,
    isValidInterface: string -> bool,
    isValidAssignmentWithType: string -> bool,
    isValidAssignment: string -> bool,
    declaredType: string -> string,
    typedAssignmentKey: string -> string,
    assignmentKey: string -> string)
}

=== FILE: wrappers.dfy ===
/** Option and Either, the two value wrappers the evaluator's interface is built from. */
module Wrappers {

  /** An optional value: `None` where the source returns an empty option or null. */
  datatype Option<+T> = None | Some(value: T)

  /** Either a failure on the left or a value on the right, as the evaluator returns it. */
  datatype Either<+L, +R> = Left(left: L) | Right(right: R)
}
